=== FILE: README.md ===
# Phonics sound board: a Dafny model of its logic

The app shows a board of letter buttons. A press can do up to three things:

- say the letter's name;
- play its phonics sound;
- say its example word.

A settings panel, opened by holding three or four fingers on the screen for two seconds, chooses which of these happen. On the retro screen it also chooses which letters the board shows; the standard screen's board always shows every letter. The app has two screens, standard and retro. Each screen has its own copy of the same controller code, with its own state, and keeps its settings under its own storage key. The model writes the controller once, as one class with a constructor for each screen.

This project models the logic under the interface:

- `SoundBoard`: which catalogue entries the retro board shows, and the edge length it gives each button for the measured width.
- `LetterButton`: the retro button. Covers its default size, its colour from an eight-colour palette, and the darker edge shade computed by parsing a `#rrggbb` colour, darkening each channel and printing it back. Also covers the raised or pressed face offset.
- `Preferences`: the settings record. Covers its defaults, the merge of a stored record over the current one at start-up, and the replacement of one key.
- `SettingsModal`: the retro settings panel. Each letter tile toggles one entry of the enabled map. Each switch reports the negation of its own flag.
- `Playback`: what a press calls on the speech and audio engines, written as a trace of actions. Also the bookkeeping of the list of sounds the screen still holds, and the invariant the screen keeps over that list and the hold timer.
- `Screens`: the screen controller as a class. Its methods update its fields in place:
  - settings load and update against a key-value store;
  - the hold timer's state machine;
  - the press sequence;
  - the end-of-sound callback;
  - the unmount clean-up.
- `Json` and `Alphabet`: the JavaScript value semantics these depend on (truthiness, property lookup, spread as map union), and the letter catalogue entry.
- `Seqs`: the subsequence relation used to state order preservation.

Two behaviours of the code are worth stating up front:

- **Button size.** The size is computed once from the width. It is not a search over sizes and never looks at the height. The height and the letter count only select the unmeasured case.
- **Earlier sounds.** A new press never stops a sound still playing. It stays listed until it finishes or the screen unmounts.

## Model

`app/retro.js` repeats the controller of `app/index.js` line for line under a different storage key. Only its constructor row cites it. The other rows' counterparts are at the same place in `app/retro.js`: loading at 32-48, the hold timer at 61-76, the clean-up at 103-111, the sound step at 113-132, the press at 147-161 and the update at 163-168.

| member | source | states |
|---|---|---|
| SoundBoard.Filter | components/retro/RetroSoundBoard.js:12 | every kept entry is enabled; each enabled entry is kept as many times as the catalogue holds it, and no other entry is kept |
| SoundBoard.VisibleLetters | components/retro/RetroSoundBoard.js:10-13 | never longer than the catalogue; with a truthy enabled map, every shown entry is enabled |
| SoundBoard.VisibleLettersSpec | components/retro/RetroSoundBoard.js:10-13 | with no truthy enabled map the whole catalogue is shown. Otherwise exactly the entries whose letter maps truthily are shown, each as often as in the catalogue. The result is always a subsequence of the catalogue (order kept) |
| SoundBoard.FilterSelects | components/retro/RetroSoundBoard.js:12 | the filter result is a subsequence of the catalogue, and an entry is in it iff it is in the catalogue and its letter is enabled |
| SoundBoard.Columns | components/retro/RetroSoundBoard.js:24 | the column count is at least 1 |
| SoundBoard.Unclamped | components/retro/RetroSoundBoard.js:25 | the shared size is the largest size whose full row, margins included, fits the padded width: that row fits and one pixel more would not |
| SoundBoard.ButtonSize | components/retro/RetroSoundBoard.js:15-28 | 80 when width, height or letter count is 0. Otherwise a size in [75, 110] whose full row fits unless it was raised to 75, and one pixel larger would not fit unless it was capped at 110; this determines the size uniquely |
| SoundBoard.SizeIgnoresHeightAndCount | components/retro/RetroSoundBoard.js:16-27 | once measured, the size depends on the width only, not on the height or the number of letters |
| SoundBoard.FullRowFits | components/retro/RetroSoundBoard.js:24-27 | when one minimum button with margin fits, the unclamped size is already at least 75; a full row of the unclamped size and of the clamped size fits the padded width; one more column of minimum buttons would not fit; one pixel more than the unclamped size would not fit |
| LetterButton.EdgeLength | components/retro/RetroLetterButton.js:19 | a missing or zero size gives 80; any other size is used as given |
| LetterButton.ButtonColor | components/retro/RetroLetterButton.js:25 | the colour is one of the eight palette entries |
| LetterButton.ColorsCycle | components/retro/RetroLetterButton.js:5-25 | colours repeat with period 8, adjacent buttons differ, and each palette entry is a `#` and six hex digits |
| LetterButton.FaceOffset | components/retro/RetroLetterButton.js:20-65 | the face is offset by -2 while pressed and by -8 otherwise |
| LetterButton.DigitValue | components/retro/RetroLetterButton.js:29 | a hex digit (either case) has a value below 16 |
| LetterButton.HexDigit | components/retro/RetroLetterButton.js:34 | the digit written for a value below 16 is a lower-case hex digit whose value is that value |
| LetterButton.DigitRoundTrip | components/retro/RetroLetterButton.js:29-34 | reading a digit and writing its value back gives the digit in lower case |
| LetterButton.ParseHex | components/retro/RetroLetterButton.js:29 | parsing k hex digits gives a number below 16^k |
| LetterButton.ToHex | components/retro/RetroLetterButton.js:34 | `toString(16)` gives at least one digit, all hex |
| LetterButton.HexPad | components/retro/RetroLetterButton.js:34 | k low-order digits, zero-padded, are exactly k hex digits |
| LetterButton.ToHexLeadingOne | components/retro/RetroLetterButton.js:34 | printing 16^k + v (v < 16^k) gives "1" followed by v zero-padded to k digits, so dropping the first character keeps the leading zeros |
| LetterButton.ParsePad | components/retro/RetroLetterButton.js:29-34 | parsing the k padded digits of v < 16^k gives back v |
| LetterButton.PadParse | components/retro/RetroLetterButton.js:29-34 | printing the parsed value of a digit string, padded to its length, gives the string in lower case |
| LetterButton.Channels | components/retro/RetroLetterButton.js:31-33 | the shift and mask of a 24-bit number give three channels, each in [0, 255] |
| LetterButton.ParseColor | components/retro/RetroLetterButton.js:29-33 | a `#rrggbb` colour parses to three channels in [0, 255] |
| LetterButton.Pack | components/retro/RetroLetterButton.js:34 | the marker bit and the three channels pack into a number in [2^24, 2^25) |
| LetterButton.FormatColor | components/retro/RetroLetterButton.js:34 | the printed colour is `#` followed by the six zero-padded hex digits of the channels, and so is a `#` plus six hex digits |
| LetterButton.FormatThenParse | components/retro/RetroLetterButton.js:29-34 | printing three channels in [0, 255] and parsing the result gives the same channels |
| LetterButton.ParseThenFormat | components/retro/RetroLetterButton.js:29-34 | parsing a colour and printing it again gives the colour in lower case |
| LetterButton.DarkenChannel | components/retro/RetroLetterButton.js:31-33 | the darkened channel is at least 0 and at least the channel less the amount, and equals one of the two; it never exceeds a non-negative channel |
| LetterButton.DarkenColor | components/retro/RetroLetterButton.js:28-35 | the result is a `#rrggbb` colour whose every channel is max(input channel - amount, 0) |
| LetterButton.DarkenProperties | components/retro/RetroLetterButton.js:28-35 | darkening never raises a channel; darkening by 0 gives the same colour (in lower case) |
| LetterButton.EdgeColor | components/retro/RetroLetterButton.js:37 | the edge shade is the button colour with every channel lowered by 77 (30 percent, rounded), floored at 0, and is never brighter |
| Alphabet.LowerChar | app/index.js:153 | `toLowerCase` maps A-Z to a-z and leaves other characters alone |
| Preferences.EnableAll | app/index.js:13 | the reduce holds the accumulator's keys and every character of the string; each character maps to true and every other entry keeps its value |
| Preferences.DefaultEnabledLetters | app/index.js:13 | the default enabled map has exactly the letters A-Z, each true |
| Preferences.DefaultSettings | app/index.js:18-27 | the default record has exactly the eight keys: the four display flags and `playPhonics` truthy, `playLetterName` and `playWord` falsy, and every letter A-Z and no other enabled |
| Preferences.LoadApplies | app/index.js:34-36 | a failed read, a missing record, an empty record, or a record that does not parse does not apply; an applied load was read and parsed |
| Preferences.LoadFails | app/index.js:33-44 | a load logs an error exactly when the read is rejected or a non-empty record does not parse; a logged load never applies, and a missing or empty record logs nothing |
| Preferences.Loaded | app/index.js:31-47 | when a non-empty record was read and parsed, the keys are the union, stored values win and other keys keep their values; a failed read, a missing or empty record, or a failed parse leaves the settings unchanged |
| Preferences.Updated | app/index.js:165-170 | the key holds the new value; every other key keeps its presence and value |
| Preferences.SavedRecordRestored | app/index.js:31-55 | a record holding the default keys, once saved and parsed back, is restored in full over the defaults |
| Preferences.UpdatedKeepsKeys | app/index.js:165-170 | an update never loses a default key |
| SettingsModal.ToggleLetter | components/retro/RetroSettingsModal.js:9-12 | reports a letter map under `enabledLetters`; the letter's visibility is negated, a missing entry or missing map becomes true, and every other entry is copied unchanged |
| SettingsModal.ToggleFlipsOne | components/retro/RetroSettingsModal.js:10-11 | after the update the toggled letter's visibility is flipped, every other letter's is kept, and every other key of the record is unchanged |
| SettingsModal.ToggleTwice | components/retro/RetroSettingsModal.js:10-11 | toggling the same letter twice restores every letter's visibility |
| SettingsModal.ToggleChangesBoard | components/retro/RetroSettingsModal.js:9-12 | with a map present, a toggle changes whether a catalogue entry is on the board iff the entry is for the toggled letter |
| SettingsModal.TileActive | components/retro/RetroSettingsModal.js:122-130 | a tile is active iff the enabled key holds a letter map that maps its letter to true; a present map of any other kind lights no tile |
| SettingsModal.TilesMatchBoard | components/retro/RetroSettingsModal.js:122-130 | a tile is active iff the map exists and enables its letter, which with a map present is iff the board shows it; with no map no tile is active though the board shows everything |
| SettingsModal.SwitchUpdate | components/retro/RetroSettingsModal.js:33 | a switch reports a boolean under its own key whose truth is the negation of that flag |
| SettingsModal.SwitchFlipsOwnFlag | components/retro/RetroSettingsModal.js:28-112 | each of the eight switches flips its own flag and no other key, and using it twice restores the flag |
| Playback.FlagsOf | app/index.js:152-160 | each playback switch is on iff its key is present and its value truthy |
| Playback.PhonicsStepsShape | app/index.js:114-134 | without an asset the sound step calls nothing; otherwise its first call asks the audio engine for the letter's asset, whether that succeeds or is rejected; a failed create or play is logged last, and a sound that plays logs nothing; it neither speaks, unloads nor touches a timer and concerns only the new sound; that sound is listed exactly when it was created |
| Playback.PressSteps | app/index.js:149-163 | a press makes at most five calls, none an unload and none a timer call |
| Playback.PressStepsInOrder | app/index.js:149-163 | the calls of a press with any switches are a subsequence of those with all three on, so the order is always name, sound, word |
| Playback.PressStepsShape | app/index.js:149-163 | with all switches off nothing is called; the name (lower case) comes first and the word last when on; a sound is created iff the sound switch is on, the letter has an asset and creation succeeds; without the sound step only speech happens; a press unloads nothing |
| Playback.PressStepsGated | app/index.js:152-162 | a switched-off name step makes no call: the press is the one with the name switch on, less its first call; likewise a switched-off word step, less the last call |
| Playback.Without | app/index.js:125 | removing a sound keeps exactly the other sounds in order, keeps them distinct, shortens a duplicate-free list holding it by one, and leaves a list without it unchanged |
| Playback.Unloads | app/index.js:106-109 | the clean-up unloads each listed sound, one call per sound, in list order |
| Playback.PendingQuiet | app/index.js:62-77 | calls that are not timer calls leave the set of pending timers unchanged |
| Playback.AppendKeeps | app/index.js:114-147 | appending calls that neither unload nor touch a timer keeps every listed sound live and the pending timers unchanged |
| Playback.FreshSound | app/index.js:118 | a sound not yet created has never been unloaded |
| Playback.InvLog | app/index.js:42-54 | logging an error keeps the screen invariant |
| Playback.InvSpeak | app/index.js:136-147 | a speech call keeps the screen invariant |
| Playback.InvPhonics | app/index.js:114-134 | the sound step keeps the screen invariant with its new sound listed |
| Playback.InvFinish | app/index.js:122-127 | unloading a finished sound and dropping it keeps the screen invariant |
| Playback.InvUnmount | app/index.js:104-112 | unloading every listed sound and emptying the list keeps the screen invariant |
| Playback.InvArm | app/index.js:64-70 | arming a timer when none is pending keeps the screen invariant with that timer pending |
| Playback.InvDisarm | app/index.js:71-76 | clearing or firing the pending timer keeps the screen invariant with none pending |
| Playback.KeepsSounds | app/index.js:62-77 | a call that concerns no sound keeps every listed sound live |
| Screens.ReadKey | app/index.js:34 | a read fails only when the storage rejects it; otherwise it is missing iff the key is absent, and stored text is the text under the key |
| Screens.KeyValueStore.constructor | app/index.js:34 | the store holds the given records |
| Screens.PhonicsScreen.Home | app/index.js:15-29 | the standard screen starts with the default settings, nothing selected, the panel closed, no sounds, no timer, and the key `phonics_settings_v1` |
| Screens.PhonicsScreen.Retro | app/retro.js:15-30 | the retro screen starts the same way with the key `phonics_settings_retro_v1`, distinct from the standard key |
| Screens.PhonicsScreen.LoadSettings | app/index.js:31-47 | the settings become the merge of the record read under the screen's own key over the current settings; a rejected read or a record that does not parse logs one error, and nothing else is called; the invariant is kept |
| Screens.PhonicsScreen.UpdateSettings | app/index.js:165-170 | one key is replaced and the whole new record is saved under the screen's key; a failed save logs one error and changes nothing stored; the invariant is kept |
| Screens.PhonicsScreen.HandleTouchChange | app/index.js:62-77 | 3 or 4 touches arm a new timer only when none is armed, taking the next handle, and otherwise change nothing; any other count clears an armed timer and leaves none, taking no handle; the invariant is kept |
| Screens.PhonicsScreen.FireTimer | app/index.js:66-69 | the pending timer fires, the settings panel opens and the handle is cleared |
| Screens.PhonicsScreen.SpeakText | app/index.js:136-147 | one speech call is recorded and the invariant is kept |
| Screens.PhonicsScreen.PlayPhonicsSound | app/index.js:114-134 | the calls are those of the sound step, including a rejected create; the new sound is appended to the list and takes the next identity; earlier sounds are left as they were; the invariant is kept |
| Screens.PhonicsScreen.HandleLetterPress | app/index.js:149-163 | the letter is selected, the calls are exactly the press steps for the switches as they were (name, sound, word), only the sound step adds to the list or takes a sound identity, and the invariant is kept |
| Screens.PhonicsScreen.SoundStatus | app/index.js:122-127 | on finish the sound is unloaded and it alone is removed from the list; otherwise nothing changes; the invariant is kept |
| Screens.PhonicsScreen.Unmount | app/index.js:104-112 | every listed sound is unloaded in list order and the list is emptied, keeping the invariant |

The screen invariant (`Playback.ScreenInv`, held by `Screens.PhonicsScreen.Valid`) says four things:

- the listed sounds are distinct;
- each was created and has not been unloaded;
- no sound in the trace is newer than the next identity to be handed out;
- the only timer armed and neither cleared nor fired is the one the screen holds.

## Left out

- Rendering: JSX, style sheets, the `Modal`, `Switch`, `Pressable` and `PanResponder` wiring, and the font size `buttonSize * 0.45`, which is floating point.
- The other components (`SettingsModal`, `LetterDisplay`, `RetroLetterDisplay`, `LetterButton`, `SoundBoard` in `components/`) are presentational. `App.js`, `app/_layout.js` and the sound download and conversion scripts do I/O only.
- The web-only Shift+S keyboard listener (app/index.js:91-102) is DOM event plumbing.
- Speech and audio engines are represented only by the calls made to them. The exception is the `setOnPlaybackStatusUpdate` registration (app/index.js:122): it is not a trace action, and the `SoundStatus` method stands for the callback it installs. Storage is a map of stored text, and its reads and writes are not recorded as calls; the error logged for a failed read or save is.
  - The outcome of creating and starting a sound is a parameter.
  - A read failure and a save failure are boolean parameters.
  - `JSON.parse` and `JSON.stringify` are function parameters.
  - The speech language, pitch and rate are not recorded.
- Real time and concurrency are not modelled:
  - the 2000 ms delay;
  - the asynchrony between overlapping presses and the engines' callbacks.

  Each press runs as one sequential trace. A finish callback or a timer firing is a separate method call.
- `data/alphabet.js` and `data/soundAssets.js` are not part of this model. The catalogue and the letter-to-asset table are parameters.
- LetterButton.DarkenColor: the amount `Math.round(2.55 * percent)` is a whole-number parameter, because it is computed in floating point. `LetterButton.EdgeColor` fixes it to 77, the value for 30 percent.
- LetterButton.ParseColor: only `#` followed by exactly six hex digits is accepted. Every palette colour has that form. `parseInt`'s leniency towards other strings is not modelled.
- LetterButton.Channels: `>>`, `&` and `|` are written as division, remainder and addition. They agree on the range in use, [0, 2^25), where the bit fields do not overlap.
- SoundBoard.ButtonSize: widths are whole numbers of pixels, so `Math.floor` of a quotient is integer division. Fractional layout widths are not modelled.
- Alphabet.LowerChar: `toLowerCase` is modelled for A-Z only, which is every catalogue letter. Other characters are left unchanged.
- Preferences.Loaded: stored values are booleans, letter maps or scalars of known truthiness.
  - A parsed value that is not an object counts as having no properties.
  - Spreading a string, which copies its characters as keys, is not modelled.
  - Letter-map entries are booleans.

=== FILE: Alphabet.dfy ===
/** The letter catalogue the screens iterate over. The catalogue's contents
    (words, speech forms, sound files) are static data outside this model;
    code that uses it takes it as a parameter. */
module Alphabet {

  /** One catalogue entry (`char` in the source; `letter` here, as `char` is a
      keyword): the upper-case letter, its example word, and the
      spoken form of its sound. */
  datatype AlphabetEntry = AlphabetEntry(letter: char, phonics: string, speech: string)

  /** The 26 letters, in the order the default enabled map is built from. */
  const LETTERS: string := "ABCDEFGHIJKLMNOPQRSTUVWXYZ"

  /** `toLowerCase` on a letter of the catalogue (ASCII A-Z); other characters stay. */
  function LowerChar(c: char): (r: char)
    ensures 'A' <= c <= 'Z' ==> 'a' <= r <= 'z' && r as int - c as int == 32
    ensures !('A' <= c <= 'Z') ==> r == c
  {
    if 'A' <= c <= 'Z' then (c as int + 32) as char else c
  }

  /** `toLowerCase` on a string of such characters. */
  function Lower(s: string): string
  {
    seq(|s|, i requires 0 <= i < |s| => LowerChar(s[i]))
  }
}

=== FILE: Json.dfy ===
/** The JavaScript values the settings record holds, and the parts of
    JavaScript's object semantics (truthiness, property lookup, spread)
    that the screens and the settings panel rely on. */
module Json {

  datatype Option<T> = None | Some(value: T)

  /** A value stored under one key of the settings record.
      `Letters` is the `enabledLetters` object (letter to visibility flag);
      `Scalar` stands for any other value a parsed record may carry
      (null, a number, a string), of which only its truthiness matters. */
  datatype Value =
    | Bool(b: bool)
    | Letters(m: map<char, bool>)
    | Scalar(truthy: bool)

  /** The settings record: an object from property names to values. */
  type Settings = map<string, Value>

  /** JavaScript truthiness; every object is truthy. */
  predicate Truthy(v: Value)
  {
    match v
    case Bool(b) => b
    case Letters(_) => true
    case Scalar(t) => t
  }

  /** `obj[key]`, with `None` for a missing property (`undefined`). */
  function Get(s: Settings, key: string): (r: Option<Value>)
    ensures r.Some? <==> key in s
    ensures r.Some? ==> r.value == s[key]
  {
    if key in s then Some(s[key]) else None
  }

  /** The truthiness of an optional value; `undefined` is falsy. */
  predicate Present(v: Option<Value>)
  {
    v.Some? && Truthy(v.value)
  }

  /** The truthiness of `obj[key]`. */
  predicate Flag(s: Settings, key: string)
  {
    Present(Get(s, key))
  }

  /** The own letter-keyed properties of a value: what `{ ...v }` copies and
      what `v[char]` can find. Only a letter object has any. */
  function LetterMap(v: Option<Value>): map<char, bool>
  {
    if v.Some? && v.value.Letters? then v.value.m else map[]
  }

  /** The truthiness of `v[c]` (and of `v?.[c]`): false when `v` is absent,
      not an object, or has no truthy entry for `c`. */
  predicate Lookup(v: Option<Value>, c: char)
  {
    var m := LetterMap(v);
    c in m && m[c]
  }
}

=== FILE: LetterButton.dfy ===
/** One retro letter button: its edge length, its colour from the palette,
    the darker shade of its edge, and how far its face is raised. */
module LetterButton {
  import opened Json
  import opened Alphabet

  const DEFAULT_SIZE: int := 80
  const EDGE_OFFSET: int := 8
  const PRESSED_OFFSET: int := 2

  /** The eight button colours, cycled through by position. */
  const RETRO_COLORS: seq<string> :=
    ["#E53935", "#1E88E5", "#43A047", "#FDD835", "#8E24AA", "#FB8C00", "#00ACC1", "#D81B60"]

  /** `size || 80`, where the `size` prop may be missing; a missing size and 0
      are falsy. */
  function EdgeLength(size: Option<int>): (r: int)
    ensures size == None || size == Some(0) ==> r == DEFAULT_SIZE
    ensures size.Some? && size.value != 0 ==> r == size.value
  {
    if size.Some? && size.value != 0 then size.value else DEFAULT_SIZE
  }

  /** `RETRO_COLORS[colorIndex % RETRO_COLORS.length]`; the board passes a
      button's position, so indices are never negative. */
  function ButtonColor(colorIndex: nat): (c: string)
    ensures c in RETRO_COLORS
  {
    RETRO_COLORS[colorIndex % |RETRO_COLORS|]
  }

  /** Colours repeat every eight buttons, and neighbours never share one. */
  lemma ColorsCycle(i: nat)
    ensures ButtonColor(i + 8) == ButtonColor(i)
    ensures ButtonColor(i) != ButtonColor(i + 1)
    ensures IsHexColor(ButtonColor(i))
  {
    var k := i % 8;
    assert (i + 8) % 8 == k;
    assert (i + 1) % 8 == if k == 7 then 0 else k + 1;
    assert IsHexColor(RETRO_COLORS[k]) by {
      forall j | 0 <= j < 8 ensures IsHexColor(RETRO_COLORS[j]) {
        var c := RETRO_COLORS[j];
        assert forall p :: 1 <= p < 7 ==> IsHexDigit(c[p]);
      }
    }
  }

  /** The vertical offset of the button face: raised by the edge height, and
      pushed down to the pressed offset while pressed. */
  function FaceOffset(isPressed: bool): (dy: int)
    ensures isPressed ==> dy == -2
    ensures !isPressed ==> dy == -8
  {
    if isPressed then -PRESSED_OFFSET else -EDGE_OFFSET
  }

  // ---------------------------------------------------------------------
  // Hexadecimal digits and numbers

  predicate IsHexDigit(c: char)
  {
    '0' <= c <= '9' || 'a' <= c <= 'f' || 'A' <= c <= 'F'
  }

  predicate AllHex(s: string)
  {
    forall i :: 0 <= i < |s| ==> IsHexDigit(s[i])
  }

  function DigitValue(c: char): (v: nat)
    requires IsHexDigit(c)
    ensures v < 16
  {
    if '0' <= c <= '9' then c as int - '0' as int
    else if 'a' <= c <= 'f' then c as int - 'a' as int + 10
    else c as int - 'A' as int + 10
  }

  /** The digit `toString(16)` writes for `v`: lower case. */
  function HexDigit(v: nat): (c: char)
    requires v < 16
    ensures IsHexDigit(c) && DigitValue(c) == v && !('A' <= c <= 'Z')
  {
    if v < 10 then ('0' as int + v) as char else ('a' as int + v - 10) as char
  }

  /** Writing back the value of a digit gives the digit in lower case. */
  lemma DigitRoundTrip(c: char)
    requires IsHexDigit(c)
    ensures HexDigit(DigitValue(c)) == LowerChar(c)
  {
  }

  function Pow16(k: nat): (p: nat)
    ensures p > 0
  {
    if k == 0 then 1 else 16 * Pow16(k - 1)
  }

  /** `parseInt(s, 16)` on a string made only of hex digits. */
  function ParseHex(s: string): (n: nat)
    requires AllHex(s)
    ensures n < Pow16(|s|)
  {
    if s == [] then 0 else 16 * ParseHex(s[..|s| - 1]) + DigitValue(s[|s| - 1])
  }

  /** `n.toString(16)` for a non-negative integer: lower-case digits, no
      leading zeros. */
  function ToHex(n: nat): (s: string)
    ensures |s| >= 1 && AllHex(s)
  {
    if n < 16 then [HexDigit(n)] else ToHex(n / 16) + [HexDigit(n % 16)]
  }

  /** The `k` low hex digits of `v`, with leading zeros. */
  function HexPad(v: nat, k: nat): (s: string)
    ensures |s| == k && AllHex(s)
  {
    if k == 0 then [] else HexPad(v / 16, k - 1) + [HexDigit(v % 16)]
  }

  /** A leading 1 digit above `k` digits keeps the zeros `toString(16)` would drop. */
  lemma {:induction false} ToHexLeadingOne(v: nat, k: nat)
    requires v < Pow16(k)
    ensures ToHex(Pow16(k) + v) == ['1'] + HexPad(v, k)
  {
    if k == 0 {
      assert v == 0;
    } else {
      var n := Pow16(k) + v;
      assert n / 16 == Pow16(k - 1) + v / 16 && n % 16 == v % 16;
      ToHexLeadingOne(v / 16, k - 1);
    }
  }

  /** Reading back `k` padded digits gives the value. */
  lemma {:induction false} ParsePad(v: nat, k: nat)
    requires v < Pow16(k)
    ensures ParseHex(HexPad(v, k)) == v
  {
    if k > 0 {
      var s := HexPad(v, k);
      assert s[..|s| - 1] == HexPad(v / 16, k - 1);
      ParsePad(v / 16, k - 1);
    }
  }

  /** Writing back the value of a digit string gives the string in lower case. */
  lemma {:induction false} PadParse(s: string)
    requires AllHex(s)
    ensures HexPad(ParseHex(s), |s|) == Lower(s)
  {
    if s != [] {
      var init, last := s[..|s| - 1], s[|s| - 1];
      var n := ParseHex(s);
      assert n / 16 == ParseHex(init) && n % 16 == DigitValue(last);
      PadParse(init);
      DigitRoundTrip(last);
      assert Lower(s) == Lower(init) + [LowerChar(last)];
    }
  }

  // ---------------------------------------------------------------------
  // Colours

  /** `#` followed by exactly six hex digits. */
  predicate IsHexColor(s: string)
  {
    |s| == 7 && s[0] == '#' && forall i :: 1 <= i < 7 ==> IsHexDigit(s[i])
  }

  datatype Rgb = Rgb(r: int, g: int, b: int)

  predicate IsByteRgb(c: Rgb)
  {
    0 <= c.r < 256 && 0 <= c.g < 256 && 0 <= c.b < 256
  }

  /** `num >> 16`, `num >> 8 & 0xFF` and `num & 0xFF`. On `0 <= num < 2^24`
      the shifts are divisions by powers of two and the masks remainders. */
  function Channels(num: nat): (c: Rgb)
    requires num < 0x100_0000
    ensures IsByteRgb(c)
  {
    Rgb(num / 0x1_0000, (num / 0x100) % 0x100, num % 0x100)
  }

  /** `parseInt(hex.slice(1), 16)` split into its three channels. */
  function ParseColor(hex: string): (c: Rgb)
    requires IsHexColor(hex)
    ensures IsByteRgb(c)
  {
    var digits := hex[1..];
    assert AllHex(digits);
    assert Pow16(6) == 0x100_0000;
    Channels(ParseHex(digits))
  }

  /** `1 << 24 | R << 16 | G << 8 | B` for channels below 256: the four bit
      fields do not overlap, so each `|` adds. */
  function Pack(c: Rgb): (n: nat)
    requires IsByteRgb(c)
    ensures 0x100_0000 <= n < 0x200_0000
  {
    0x100_0000 + c.r * 0x1_0000 + c.g * 0x100 + c.b
  }

  /** `#${Pack(c).toString(16).slice(1)}`: the leading 1 that the marker bit
      puts in front is dropped, which leaves the six zero-padded digits of the
      channels. */
  function FormatColor(c: Rgb): (s: string)
    requires IsByteRgb(c)
    ensures s == "#" + HexPad(Pack(c) - 0x100_0000, 6)
    ensures IsHexColor(s)
  {
    assert Pow16(6) == 0x100_0000;
    ToHexLeadingOne(Pack(c) - 0x100_0000, 6);
    "#" + ToHex(Pack(c))[1..]
  }

  /** Formatting three channels and parsing the result gives them back. */
  lemma FormatThenParse(c: Rgb)
    requires IsByteRgb(c)
    ensures IsHexColor(FormatColor(c))
    ensures ParseColor(FormatColor(c)) == c
  {
    var v := Pack(c) - 0x100_0000;
    assert Pow16(6) == 0x100_0000;
    ParsePad(v, 6);
    assert FormatColor(c)[1..] == HexPad(v, 6);
    assert v == c.r * 0x1_0000 + c.g * 0x100 + c.b;
    assert v / 0x1_0000 == c.r;
    assert v / 0x100 == c.r * 0x100 + c.g;
  }

  /** Parsing a colour and formatting it again gives the colour in lower case. */
  lemma ParseThenFormat(hex: string)
    requires IsHexColor(hex)
    ensures FormatColor(ParseColor(hex)) == Lower(hex)
  {
    var digits := hex[1..];
    var n := ParseHex(digits);
    assert Pow16(6) == 0x100_0000;
    var c := ParseColor(hex);
    assert Pack(c) - 0x100_0000 == n;
    PadParse(digits);
    assert Lower(hex) == "#" + Lower(digits);
  }

  /** `Math.max(x - amt, 0)`: one channel less `amt`, floored at 0. */
  function DarkenChannel(x: int, amt: nat): (y: int)
    ensures y >= 0 && y >= x - amt
    ensures y == 0 || y == x - amt
    ensures 0 <= x ==> y <= x
  {
    if x - amt < 0 then 0 else x - amt
  }

  /** `darkenColor(hex, percent)` with `amt = Math.round(2.55 * percent)`
      given as a whole number. */
  function DarkenColor(hex: string, amt: nat): (r: string)
    requires IsHexColor(hex)
    ensures IsHexColor(r)
    ensures var c, d := ParseColor(hex), ParseColor(r);
      d == Rgb(DarkenChannel(c.r, amt), DarkenChannel(c.g, amt), DarkenChannel(c.b, amt))
  {
    var c := ParseColor(hex);
    var d := Rgb(DarkenChannel(c.r, amt), DarkenChannel(c.g, amt), DarkenChannel(c.b, amt));
    FormatThenParse(d);
    FormatColor(d)
  }

  /** Darkening never brightens a channel, and darkening by 0 gives back the
      same colour, written in lower case. */
  lemma DarkenProperties(hex: string, amt: nat)
    requires IsHexColor(hex)
    ensures var c, d := ParseColor(hex), ParseColor(DarkenColor(hex, amt));
      d.r <= c.r && d.g <= c.g && d.b <= c.b
    ensures amt == 0 ==> DarkenColor(hex, amt) == Lower(hex)
  {
    if amt == 0 {
      ParseThenFormat(hex);
    }
  }

  /** The edge is darkened by 30 percent: `Math.round(2.55 * 30)`. In double
      precision `2.55 * 30` is exactly 76.5, which `Math.round` rounds up. */
  const EDGE_AMOUNT: nat := 77

  /** `darkenColor(buttonColor, 30)`: the edge shade of the button at `colorIndex`. */
  function EdgeColor(colorIndex: nat): (r: string)
    ensures IsHexColor(r)
    ensures var c, d := ParseColor(ButtonColor(colorIndex)), ParseColor(r);
      d == Rgb(DarkenChannel(c.r, EDGE_AMOUNT), DarkenChannel(c.g, EDGE_AMOUNT), DarkenChannel(c.b, EDGE_AMOUNT))
    ensures var c, d := ParseColor(ButtonColor(colorIndex)), ParseColor(r);
      d.r <= c.r && d.g <= c.g && d.b <= c.b
  {
    ColorsCycle(colorIndex);
    DarkenProperties(ButtonColor(colorIndex), EDGE_AMOUNT);
    DarkenColor(ButtonColor(colorIndex), EDGE_AMOUNT)
  }
}

=== FILE: Playback.dfy ===
/** What one press of a letter makes the screen do, as a trace of calls to
    the speech and audio engines, and the bookkeeping of the list of sounds
    the screen still holds. Speech, audio and timers are not modelled beyond
    the calls made to them. */
module Playback {
  import opened Json
  import opened Alphabet
  import opened Preferences
  import opened Seqs

  /** A sound object made by the audio engine; each gets a new identity. */
  type SoundId = nat
  /** A sound file reference from the asset table. The table holds only the
      letters whose asset is truthy, so a letter outside it is one whose
      `soundFile` fails the source's `if (soundFile)` test. */
  type Asset = nat
  /** A handle returned by `setTimeout`. */
  type TimerId = nat

  /** The calls the screen makes to the engines and to the timer. */
  datatype Action =
    | Speak(text: string)                    // Speech.speak(text, en-US, pitch 1.0, rate 0.8)
    | CreateSound(asset: Asset, sound: SoundId)  // Audio.Sound.createAsync(asset), giving `sound`
    | CreateRejected(asset: Asset)           // Audio.Sound.createAsync(asset), rejected
    | PlaySound(sound: SoundId)              // sound.playAsync()
    | UnloadSound(sound: SoundId)            // sound.unloadAsync()
    | LogError                               // console.error of a caught failure
    | ArmTimer(timer: TimerId)               // setTimeout(open settings, 2000)
    | ClearTimer(timer: TimerId)             // clearTimeout(timer)
    | TimerFired(timer: TimerId)             // the timeout callback runs

  /** How creating and starting a sound went. */
  datatype SoundOutcome = CreateFailed | PlayFailed | Played

  /** The three playback switches of the settings record. */
  datatype PlayFlags = PlayFlags(name: bool, phonics: bool, word: bool)

  /** `settings.playLetterName`, `settings.playPhonics` and `settings.playWord`
      read for truthiness: a missing key is off. */
  function FlagsOf(s: Settings): (f: PlayFlags)
    ensures f.name <==> PLAY_LETTER_NAME in s && Truthy(s[PLAY_LETTER_NAME])
    ensures f.phonics <==> PLAY_PHONICS in s && Truthy(s[PLAY_PHONICS])
    ensures f.word <==> PLAY_WORD in s && Truthy(s[PLAY_WORD])
  {
    PlayFlags(Flag(s, PLAY_LETTER_NAME), Flag(s, PLAY_PHONICS), Flag(s, PLAY_WORD))
  }

  /** `playPhonicsSound(c)`: nothing without an asset (`c !in assets`, the
      falsy `soundFile`); otherwise try to create
      the sound `id`, start it once created, and log an error if either call
      fails. */
  function PhonicsSteps(c: char, assets: map<char, Asset>, outcome: SoundOutcome, id: SoundId): seq<Action>
  {
    if c !in assets then []
    else match outcome
      case CreateFailed => [CreateRejected(assets[c]), LogError]
      case PlayFailed => [CreateSound(assets[c], id), PlaySound(id), LogError]
      case Played => [CreateSound(assets[c], id), PlaySound(id)]
  }

  /** The sounds `playPhonicsSound` adds to the list: the new sound, once created. */
  function PhonicsSounds(c: char, assets: map<char, Asset>, outcome: SoundOutcome, id: SoundId): seq<SoundId>
  {
    if c in assets && outcome != CreateFailed then [id] else []
  }

  /** The sound step does nothing without an asset and otherwise first calls the
      audio engine with the letter's asset; a failed create or play is logged
      last, and a sound that plays logs nothing; it speaks, unloads and touches
      no timer; it concerns only the new sound; and that sound is listed exactly
      when it was created. */
  lemma PhonicsStepsShape(c: char, assets: map<char, Asset>, outcome: SoundOutcome, id: SoundId)
    ensures var t := PhonicsSteps(c, assets, outcome, id);
      && (t == [] <==> c !in assets)
      && (c in assets ==> t[0] == CreateRejected(assets[c]) || t[0] == CreateSound(assets[c], id))
      && (c in assets && outcome != Played ==> t[|t| - 1] == LogError)
      && (outcome == Played ==> LogError !in t)
      && (forall a :: a in t ==> !a.Speak? && !a.UnloadSound? && !IsTimerAction(a))
      && (forall a :: a in t && SoundOf(a).Some? ==> SoundOf(a).value == id)
    ensures var added := PhonicsSounds(c, assets, outcome, id);
      && (added == [] || added == [id])
      && (added == [id] <==> exists a :: CreateSound(a, id) in PhonicsSteps(c, assets, outcome, id))
  {
    if c in assets && outcome != CreateFailed {
      assert CreateSound(assets[c], id) == PhonicsSteps(c, assets, outcome, id)[0];
    }
  }

  /** `handleLetterPress(item)`: the letter's name (lower case), its sound,
      then its word, each when its switch is on. Every speech step ends on
      done, stop or error alike, so no step cuts the sequence short. */
  function PressSteps(flags: PlayFlags, item: AlphabetEntry, assets: map<char, Asset>,
                      outcome: SoundOutcome, id: SoundId): (t: seq<Action>)
    ensures |t| <= 5
    ensures forall a :: a in t ==> !a.UnloadSound? && !IsTimerAction(a)
  {
    (if flags.name then [Speak([LowerChar(item.letter)])] else [])
    + (if flags.phonics then PhonicsSteps(item.letter, assets, outcome, id) else [])
    + (if flags.word then [Speak(item.phonics)] else [])
  }

  /** Switching steps off only omits them: the calls of any press are a
      subsequence of the calls with every switch on, so the order is always
      name, sound, word. */
  lemma {:induction false} PressStepsInOrder(flags: PlayFlags, item: AlphabetEntry,
                                             assets: map<char, Asset>, outcome: SoundOutcome, id: SoundId)
    ensures IsSubseq(PressSteps(flags, item, assets, outcome, id),
                     PressSteps(PlayFlags(true, true, true), item, assets, outcome, id))
  {
    var name := [Speak([LowerChar(item.letter)])];
    var sound := PhonicsSteps(item.letter, assets, outcome, id);
    var word := [Speak(item.phonics)];
    var n := if flags.name then name else [];
    var s := if flags.phonics then sound else [];
    var w := if flags.word then word else [];
    assert IsSubseq(n, name) by { SubseqRefl(name); SubseqOfNothing(name); }
    assert IsSubseq(s, sound) by { SubseqRefl(sound); SubseqOfNothing(sound); }
    assert IsSubseq(w, word) by { SubseqRefl(word); SubseqOfNothing(word); }
    SubseqConcat(n, name, s, sound);
    SubseqConcat(n + s, name + sound, w, word);
  }

  /** What a press calls: the name first and the word last when switched on;
      a sound only with the switch on, an asset, and a successful create; no
      call at all with every switch off; and never an unload, so sounds of
      earlier presses keep playing. */
  lemma PressStepsShape(flags: PlayFlags, item: AlphabetEntry, assets: map<char, Asset>,
                        outcome: SoundOutcome, id: SoundId)
    ensures var t := PressSteps(flags, item, assets, outcome, id);
      && (flags == PlayFlags(false, false, false) ==> t == [])
      && (flags.name ==> t[0] == Speak([LowerChar(item.letter)]))
      && (flags.word ==> t[|t| - 1] == Speak(item.phonics))
      && ((exists a :: a in t && a.CreateSound?) <==> flags.phonics && PhonicsSounds(item.letter, assets, outcome, id) == [id])
      && (item.letter !in assets || !flags.phonics ==> forall a :: a in t ==> a.Speak?)
      && (forall a :: a in t ==> !a.UnloadSound?)
  {
    var t := PressSteps(flags, item, assets, outcome, id);
    var n := if flags.name then [Speak([LowerChar(item.letter)])] else [];
    var s := if flags.phonics then PhonicsSteps(item.letter, assets, outcome, id) else [];
    var w := if flags.word then [Speak(item.phonics)] else [];
    assert t == n + s + w;
    if flags.phonics && PhonicsSounds(item.letter, assets, outcome, id) == [id] {
      assert s[0] == CreateSound(assets[item.letter], id);
      assert s[0] in t;
    }
  }

  /** A switched-off name or word step makes no call: the press is the one with
      that switch on, less its first or its last call. */
  lemma PressStepsGated(flags: PlayFlags, item: AlphabetEntry, assets: map<char, Asset>,
                        outcome: SoundOutcome, id: SoundId)
    ensures !flags.name ==>
      PressSteps(flags, item, assets, outcome, id) ==
        PressSteps(PlayFlags(true, flags.phonics, flags.word), item, assets, outcome, id)[1..]
    ensures !flags.word ==>
      var on := PressSteps(PlayFlags(flags.name, flags.phonics, true), item, assets, outcome, id);
      PressSteps(flags, item, assets, outcome, id) == on[..|on| - 1]
  {
    var t := PressSteps(flags, item, assets, outcome, id);
    var name := [Speak([LowerChar(item.letter)])];
    var word := [Speak(item.phonics)];
    var n := if flags.name then name else [];
    var s := if flags.phonics then PhonicsSteps(item.letter, assets, outcome, id) else [];
    var w := if flags.word then word else [];
    assert t == n + s + w;
    if !flags.name {
      var on := PressSteps(PlayFlags(true, flags.phonics, flags.word), item, assets, outcome, id);
      assert on == name + (s + w);
      assert on[1..] == s + w;
    }
    if !flags.word {
      var on := PressSteps(PlayFlags(flags.name, flags.phonics, true), item, assets, outcome, id);
      assert on == (n + s) + word;
      assert on[..|on| - 1] == n + s;
    }
  }

  // ---------------------------------------------------------------------
  // The list of sounds the screen holds

  predicate NoDup(s: seq<SoundId>)
  {
    forall i, j :: 0 <= i < j < |s| ==> s[i] != s[j]
  }

  /** `list.filter(s => s !== x)`. */
  function Without(list: seq<SoundId>, x: SoundId): (r: seq<SoundId>)
    ensures forall y :: y in r <==> y in list && y != x
    ensures IsSubseq(r, list)
    ensures NoDup(list) ==> NoDup(r)
    ensures NoDup(list) && x in list ==> |r| == |list| - 1
    ensures x !in list ==> r == list
  {
    if list == [] then []
    else
      var rest := Without(list[1..], x);
      assert NoDup(list) ==> NoDup(list[1..]) && list[0] !in list[1..];
      if list[0] == x then
        SubseqSkip(list[0], rest, list[1..]);
        assert [list[0]] + list[1..] == list;
        rest
      else
        var r := [list[0]] + rest;
        assert r[1..] == rest;
        assert NoDup(list) ==> NoDup(r) by {
          if NoDup(list) {
            forall i, j | 0 <= i < j < |r| ensures r[i] != r[j] {
              if i == 0 { assert r[j] in rest; }
              else { assert r[i] == rest[i - 1] && r[j] == rest[j - 1]; }
            }
          }
        }
        r
  }

  /** The unload calls of the unmount clean-up, in list order. */
  function Unloads(list: seq<SoundId>): (r: seq<Action>)
    ensures |r| == |list|
    ensures forall i :: 0 <= i < |list| ==> r[i] == UnloadSound(list[i])
  {
    seq(|list|, i requires 0 <= i < |list| => UnloadSound(list[i]))
  }

  /** The sound an action concerns, if any. */
  function SoundOf(a: Action): Option<SoundId>
  {
    match a
    case CreateSound(_, s) => Some(s)
    case PlaySound(s) => Some(s)
    case UnloadSound(s) => Some(s)
    case _ => None
  }

  predicate IsTimerAction(a: Action)
  {
    a.ArmTimer? || a.ClearTimer? || a.TimerFired?
  }

  /** The timers armed in a trace that have neither been cleared nor fired. */
  function Pending(t: seq<Action>): set<TimerId>
  {
    if t == [] then {}
    else
      var p := Pending(t[..|t| - 1]);
      match t[|t| - 1]
      case ArmTimer(h) => p + {h}
      case ClearTimer(h) => p - {h}
      case TimerFired(h) => p - {h}
      case _ => p
  }

  /** Calls that are not timer calls leave the pending timers alone. */
  lemma {:induction false} PendingQuiet(t: seq<Action>, u: seq<Action>)
    requires forall a :: a in u ==> !IsTimerAction(a)
    ensures Pending(t + u) == Pending(t)
    decreases |u|
  {
    if u != [] {
      var init := u[..|u| - 1];
      assert (t + u)[..|t + u| - 1] == t + init;
      assert (t + u)[|t + u| - 1] == u[|u| - 1];
      assert u[|u| - 1] in u;
      PendingQuiet(t, init);
    } else {
      assert t + u == t;
    }
  }

  /** Every sound the trace mentions was made before sound `n`. */
  ghost predicate SoundsBelow(t: seq<Action>, n: SoundId)
  {
    forall i :: 0 <= i < |t| && SoundOf(t[i]).Some? ==> SoundOf(t[i]).value < n
  }

  ghost predicate Created(t: seq<Action>, s: SoundId)
  {
    exists a :: CreateSound(a, s) in t
  }

  /** Every listed sound has been created and not unloaded. */
  ghost predicate Live(t: seq<Action>, list: seq<SoundId>)
  {
    forall s :: s in list ==> UnloadSound(s) !in t && Created(t, s)
  }

  /** Appending calls that unload nothing and touch no timer keeps the listed
      sounds live and the pending timers as they were. */
  lemma {:induction false} AppendKeeps(t: seq<Action>, u: seq<Action>, list: seq<SoundId>, n: SoundId)
    requires SoundsBelow(t, n) && SoundsBelow(u, n) && Live(t, list)
    requires forall a :: a in u ==> !a.UnloadSound? && !IsTimerAction(a)
    ensures SoundsBelow(t + u, n) && Live(t + u, list) && Pending(t + u) == Pending(t)
  {
    PendingQuiet(t, u);
    forall i | 0 <= i < |t + u| && SoundOf((t + u)[i]).Some?
      ensures SoundOf((t + u)[i]).value < n
    {
      if i >= |t| {
        assert (t + u)[i] == u[i - |t|];
      }
    }
    forall s | s in list ensures UnloadSound(s) !in t + u && Created(t + u, s) {
      var a :| CreateSound(a, s) in t;
      assert CreateSound(a, s) in t + u;
    }
  }

  /** A sound not yet made appears nowhere in the trace. */
  lemma FreshSound(t: seq<Action>, n: SoundId)
    requires SoundsBelow(t, n)
    ensures UnloadSound(n) !in t
  {
  }

  // ---------------------------------------------------------------------
  // The screen's invariant, on the values of its fields

  /** The listed sounds are distinct, live and older than `next`; the only
      pending timer is the one the screen holds. */
  ghost predicate ScreenInv(list: seq<SoundId>, next: SoundId, t: seq<Action>,
                            timer: Option<TimerId>, nextTimer: TimerId)
  {
    && NoDup(list)
    && (forall s :: s in list ==> s < next)
    && SoundsBelow(t, next)
    && Live(t, list)
    && Pending(t) == (if timer.Some? then {timer.value} else {})
    && (timer.Some? ==> timer.value < nextTimer)
  }

  /** A speech call keeps the invariant. */
  lemma InvSpeak(list: seq<SoundId>, next: SoundId, t: seq<Action>, timer: Option<TimerId>,
                 nextTimer: TimerId, text: string)
    requires ScreenInv(list, next, t, timer, nextTimer)
    ensures ScreenInv(list, next, t + [Speak(text)], timer, nextTimer)
  {
    AppendKeeps(t, [Speak(text)], list, next);
  }

  /** Logging an error keeps the invariant. */
  lemma InvLog(list: seq<SoundId>, next: SoundId, t: seq<Action>, timer: Option<TimerId>,
               nextTimer: TimerId)
    requires ScreenInv(list, next, t, timer, nextTimer)
    ensures ScreenInv(list, next, t + [LogError], timer, nextTimer)
  {
    AppendKeeps(t, [LogError], list, next);
  }

  /** The sound step keeps the invariant: its new sound is fresh, created
      and listed. */
  lemma InvPhonics(list: seq<SoundId>, next: SoundId, t: seq<Action>, timer: Option<TimerId>,
                   nextTimer: TimerId, c: char, assets: map<char, Asset>, outcome: SoundOutcome)
    requires ScreenInv(list, next, t, timer, nextTimer)
    ensures var added := PhonicsSounds(c, assets, outcome, next);
      ScreenInv(list + added, next + |added|, t + PhonicsSteps(c, assets, outcome, next), timer, nextTimer)
  {
    var added := PhonicsSounds(c, assets, outcome, next);
    var steps := PhonicsSteps(c, assets, outcome, next);
    var n := next + |added|;
    assert SoundsBelow(t, n);
    AppendKeeps(t, steps, list, n);
    if added == [next] {
      FreshSound(t, next);
      assert CreateSound(assets[c], next) == steps[0] && steps[0] in t + steps;
      assert Created(t + steps, next);
      assert UnloadSound(next) !in steps;
      assert NoDup(list + added) by {
        assert next !in list;
      }
    } else {
      assert list + added == list;
    }
  }

  /** Unloading a finished sound and dropping it from the list keeps the invariant. */
  lemma InvFinish(list: seq<SoundId>, next: SoundId, t: seq<Action>, timer: Option<TimerId>,
                  nextTimer: TimerId, s: SoundId)
    requires ScreenInv(list, next, t, timer, nextTimer) && s < next
    ensures ScreenInv(Without(list, s), next, t + [UnloadSound(s)], timer, nextTimer)
  {
    var u := [UnloadSound(s)];
    PendingQuiet(t, u);
    assert SoundsBelow(t + u, next) by {
      forall i | 0 <= i < |t + u| && SoundOf((t + u)[i]).Some? ensures SoundOf((t + u)[i]).value < next {
        if i < |t| { assert (t + u)[i] == t[i]; }
      }
    }
    forall x | x in Without(list, s) ensures UnloadSound(x) !in t + u && Created(t + u, x) {
      var a :| CreateSound(a, x) in t;
      assert CreateSound(a, x) in t + u;
    }
  }

  /** Unloading every listed sound and emptying the list keeps the invariant. */
  lemma InvUnmount(list: seq<SoundId>, next: SoundId, t: seq<Action>, timer: Option<TimerId>,
                   nextTimer: TimerId)
    requires ScreenInv(list, next, t, timer, nextTimer)
    ensures ScreenInv([], next, t + Unloads(list), timer, nextTimer)
  {
    var u := Unloads(list);
    PendingQuiet(t, u);
    forall j | 0 <= j < |t + u| && SoundOf((t + u)[j]).Some? ensures SoundOf((t + u)[j]).value < next {
      if j >= |t| {
        assert (t + u)[j] == u[j - |t|] == UnloadSound(list[j - |t|]);
        assert list[j - |t|] in list;
      } else {
        assert (t + u)[j] == t[j];
      }
    }
  }

  /** Arming a new timer while none is pending keeps the invariant. */
  lemma InvArm(list: seq<SoundId>, next: SoundId, t: seq<Action>, nextTimer: TimerId)
    requires ScreenInv(list, next, t, None, nextTimer)
    ensures ScreenInv(list, next, t + [ArmTimer(nextTimer)], Some(nextTimer), nextTimer + 1)
  {
    KeepsSounds(t, ArmTimer(nextTimer), list, next);
  }

  /** Clearing or firing the pending timer keeps the invariant. */
  lemma InvDisarm(list: seq<SoundId>, next: SoundId, t: seq<Action>, h: TimerId, nextTimer: TimerId, fired: bool)
    requires ScreenInv(list, next, t, Some(h), nextTimer)
    ensures ScreenInv(list, next, t + [if fired then TimerFired(h) else ClearTimer(h)], None, nextTimer)
  {
    KeepsSounds(t, if fired then TimerFired(h) else ClearTimer(h), list, next);
  }

  /** A call that concerns no sound keeps the sound facts of the invariant. */
  lemma KeepsSounds(t: seq<Action>, a: Action, list: seq<SoundId>, next: SoundId)
    requires SoundsBelow(t, next) && Live(t, list) && SoundOf(a).None?
    ensures SoundsBelow(t + [a], next) && Live(t + [a], list)
  {
    forall i | 0 <= i < |t + [a]| && SoundOf((t + [a])[i]).Some? ensures SoundOf((t + [a])[i]).value < next {
      assert (t + [a])[i] == t[i];
    }
    forall x | x in list ensures UnloadSound(x) !in t + [a] && Created(t + [a], x) {
      var b :| CreateSound(b, x) in t;
      assert CreateSound(b, x) in t + [a];
    }
  }
}

=== FILE: Preferences.dfy ===
/** The settings record both screens keep: its defaults, how a stored record
    is merged in at start-up, and how one key is replaced. */
module Preferences {
  import opened Json
  import opened Alphabet

  const SHOW_STANDARD: string := "showStandard"
  const SHOW_CURSIVE: string := "showCursive"
  const SHOW_UPPERCASE: string := "showUppercase"
  const SHOW_LOWERCASE: string := "showLowercase"
  const PLAY_PHONICS: string := "playPhonics"
  const PLAY_LETTER_NAME: string := "playLetterName"
  const PLAY_WORD: string := "playWord"
  const ENABLED_LETTERS: string := "enabledLetters"

  /** The storage keys of the standard and the retro screen. */
  const HOME_KEY: string := "phonics_settings_v1"
  const RETRO_KEY: string := "phonics_settings_retro_v1"

  /** `chars.reduce((acc, char) => ({ ...acc, [char]: true }), acc)`: every
      character of `chars` is added with `true`, and the other entries of
      `acc` are kept. */
  function {:induction false} EnableAll(chars: string, acc: map<char, bool>): (m: map<char, bool>)
    ensures forall c :: c in m <==> c in acc || c in chars
    ensures forall c :: c in m ==> m[c] == (c in chars || acc[c])
  {
    if chars == [] then acc
    else
      var next := acc[chars[0] := true];
      assert forall c :: c in chars <==> c == chars[0] || c in chars[1..];
      assert forall c :: c in next <==> c in acc || c == chars[0];
      EnableAll(chars[1..], next)
  }

  /** Every letter A to Z, each enabled. */
  function DefaultEnabledLetters(): (m: map<char, bool>)
    ensures forall c :: c in m <==> c in LETTERS
    ensures forall c :: c in m ==> m[c]
  {
    EnableAll(LETTERS, map[])
  }

  /** The record a screen starts with. */
  function DefaultSettings(): (s: Settings)
    ensures s.Keys == {SHOW_STANDARD, SHOW_CURSIVE, SHOW_UPPERCASE, SHOW_LOWERCASE,
                       PLAY_PHONICS, PLAY_LETTER_NAME, PLAY_WORD, ENABLED_LETTERS}
    ensures Flag(s, SHOW_STANDARD) && Flag(s, SHOW_CURSIVE)
    ensures Flag(s, SHOW_UPPERCASE) && Flag(s, SHOW_LOWERCASE)
    ensures Flag(s, PLAY_PHONICS) && !Flag(s, PLAY_LETTER_NAME) && !Flag(s, PLAY_WORD)
    ensures forall c :: Lookup(Get(s, ENABLED_LETTERS), c) <==> c in LETTERS
  {
    var letters := DefaultEnabledLetters();
    var s := map[SHOW_STANDARD := Bool(true), SHOW_CURSIVE := Bool(true),
                 SHOW_UPPERCASE := Bool(true), SHOW_LOWERCASE := Bool(true),
                 PLAY_PHONICS := Bool(true), PLAY_LETTER_NAME := Bool(false), PLAY_WORD := Bool(false),
                 ENABLED_LETTERS := Letters(letters)];
    assert Get(s, ENABLED_LETTERS) == Some(Letters(letters));
    s
  }

  /** What `getItem` gave: a rejection, `null`, or the stored text. */
  datatype ReadResult = ReadFailed | Missing | Stored(blob: string)

  /** Whether the load takes effect: text was read, it is truthy (not
      empty), and `parse` (JSON.parse; `None` when it throws) accepted it. */
  function LoadApplies(read: ReadResult, parse: string -> Option<Settings>): (applies: bool)
    ensures read == ReadFailed || read == Missing || read == Stored("") ==> !applies
    ensures read.Stored? && parse(read.blob) == None ==> !applies
    ensures applies ==> read.Stored? && parse(read.blob).Some?
  {
    read.Stored? && read.blob != "" && parse(read.blob).Some?
  }

  /** Whether the load logs an error: the read was rejected, or the stored text
      is truthy and `parse` threw. A missing or empty record is skipped
      silently. */
  function LoadFails(read: ReadResult, parse: string -> Option<Settings>): (fails: bool)
    ensures read == ReadFailed ==> fails
    ensures fails ==> !LoadApplies(read, parse)
    ensures read == Missing || read == Stored("") ==> !fails
    ensures read.Stored? && read.blob != "" ==> (fails <==> !LoadApplies(read, parse))
  {
    read == ReadFailed || (read.Stored? && read.blob != "" && parse(read.blob).None?)
  }

  /** The settings after loading: `{ ...prev, ...parsed }` when the load
      applies, `prev` otherwise. A parsed value that is not an object has no
      own properties and is `Some(map[])` here. */
  function Loaded(prev: Settings, read: ReadResult, parse: string -> Option<Settings>): (r: Settings)
    ensures !LoadApplies(read, parse) ==> r == prev
    ensures LoadApplies(read, parse) ==>
      var p := parse(read.blob).value;
      && (forall k :: k in r <==> k in prev || k in p)
      && (forall k :: k in p ==> r[k] == p[k])
      && (forall k :: k in prev && k !in p ==> r[k] == prev[k])
  {
    if LoadApplies(read, parse) then prev + parse(read.blob).value else prev
  }

  /** `{ ...prev, [key]: value }`. */
  function Updated(prev: Settings, key: string, value: Value): (r: Settings)
    ensures key in r && r[key] == value
    ensures forall k :: k != key ==> (k in r <==> k in prev)
    ensures forall k :: k != key && k in prev ==> r[k] == prev[k]
  {
    prev[key := value]
  }

  /** A record that holds at least the default keys, once written and read back
      by a serializer whose parse inverts it, is restored in full over the
      defaults at the next start. */
  lemma {:induction false} SavedRecordRestored(s: Settings, text: string, parse: string -> Option<Settings>)
    requires DefaultSettings().Keys <= s.Keys
    requires text != "" && parse(text) == Some(s)
    ensures Loaded(DefaultSettings(), Stored(text), parse) == s
  {
    var r := Loaded(DefaultSettings(), Stored(text), parse);
    assert LoadApplies(Stored(text), parse);
    assert r.Keys == s.Keys;
    forall k | k in r ensures r[k] == s[k] {
    }
  }

  /** Updating keeps every default key, so records built from the defaults by
      updates stay restorable. */
  lemma UpdatedKeepsKeys(prev: Settings, key: string, value: Value)
    requires DefaultSettings().Keys <= prev.Keys
    ensures DefaultSettings().Keys <= Updated(prev, key, value).Keys
  {
  }
}

=== FILE: Screens.dfy ===
/** The screen controller shared by the standard and the retro screen: the
    settings it owns and persists, the selected letter, the list of sounds it
    still holds, and the timer of the three- or four-finger hold that opens
    the settings panel. The two screens differ only in their storage key. */
module Screens {
  import opened Json
  import opened Alphabet
  import opened Preferences
  import opened Playback
  import Seqs

  /** The device's key-value storage: keys to serialized records. */
  class KeyValueStore {
    var data: map<string, string>

    constructor (initial: map<string, string>)
      ensures data == initial
    {
      data := initial;
    }
  }

  /** What `getItem(key)` gives from `data`, or a rejection. */
  function ReadKey(data: map<string, string>, key: string, fails: bool): (r: ReadResult)
    ensures r == ReadFailed <==> fails
    ensures !fails ==> (r == Missing <==> key !in data)
    ensures r.Stored? ==> key in data && r.blob == data[key]
  {
    if fails then ReadFailed else if key in data then Stored(data[key]) else Missing
  }

  class PhonicsScreen {
    const storageKey: string
    const store: KeyValueStore
    var settings: Settings
    var selectedLetter: Option<char>
    var settingsVisible: bool
    /** `activeSounds.current`. */
    var activeSounds: seq<SoundId>
    /** The identity the next created sound gets. */
    var nextSound: SoundId
    /** `timerRef.current`. */
    var timer: Option<TimerId>
    /** The handle the next `setTimeout` returns. */
    var nextTimer: TimerId
    /** Every speech, audio and timer call made so far, and every error
        logged. Storage reads and writes are not recorded here, and neither is
        the `setOnPlaybackStatusUpdate` registration; `SoundStatus` stands for
        the callback it installs. */
    var trace: seq<Action>

    /** The held sounds are distinct, live (created and never unloaded), and
        the only pending timer is the one in `timer`. */
    ghost predicate Valid()
      reads this
    {
      ScreenInv(activeSounds, nextSound, trace, timer, nextTimer)
    }

    /** The standard screen (`HomeScreen`). */
    constructor Home(store: KeyValueStore)
      ensures Valid() && storageKey == HOME_KEY && this.store == store
      ensures settings == DefaultSettings() && selectedLetter == None && !settingsVisible
      ensures activeSounds == [] && timer == None && trace == []
    {
      storageKey := HOME_KEY;
      this.store := store;
      settings := DefaultSettings();
      selectedLetter, settingsVisible := None, false;
      activeSounds, nextSound := [], 0;
      timer, nextTimer := None, 1;
      trace := [];
    }

    /** The retro screen (`RetroScreen`), with its own storage key. */
    constructor Retro(store: KeyValueStore)
      ensures Valid() && storageKey == RETRO_KEY && storageKey != HOME_KEY && this.store == store
      ensures settings == DefaultSettings() && selectedLetter == None && !settingsVisible
      ensures activeSounds == [] && timer == None && trace == []
    {
      storageKey := RETRO_KEY;
      this.store := store;
      settings := DefaultSettings();
      selectedLetter, settingsVisible := None, false;
      activeSounds, nextSound := [], 0;
      timer, nextTimer := None, 1;
      trace := [];
    }

    /** `loadSettings`: merge the record stored under this screen's key over
        the current settings; a failed read, a missing or empty record, or a
        failed parse leaves them as they were, and a failed read or parse is
        logged. */
    method LoadSettings(readFails: bool, parse: string -> Option<Settings>)
      requires Valid()
      modifies this`settings, this`trace
      ensures Valid()
      ensures settings == Loaded(old(settings), ReadKey(store.data, storageKey, readFails), parse)
      ensures trace == old(trace) +
        (if LoadFails(ReadKey(store.data, storageKey, readFails), parse) then [LogError] else [])
    {
      var read := ReadKey(store.data, storageKey, readFails);
      if LoadFails(read, parse) {
        InvLog(activeSounds, nextSound, trace, timer, nextTimer);
        trace := trace + [LogError];
      }
      settings := Loaded(settings, read, parse);
    }

    /** `handleUpdateSettings(key, value)`: replace one key and save the new
        record under this screen's key; a failed save is caught, logged, and
        changes nothing stored. */
    method UpdateSettings(key: string, value: Value, serialize: Settings -> string, saveOk: bool)
      requires Valid()
      modifies this`settings, this`trace, store
      ensures Valid()
      ensures trace == old(trace) + (if saveOk then [] else [LogError])
      ensures settings == Updated(old(settings), key, value)
      ensures store.data == if saveOk then old(store.data)[storageKey := serialize(settings)]
                            else old(store.data)
    {
      settings := Updated(settings, key, value);
      if saveOk {
        store.data := store.data[storageKey := serialize(settings)];
      } else {
        InvLog(activeSounds, nextSound, trace, timer, nextTimer);
        trace := trace + [LogError];
      }
    }

    /** `handleTouchChange` with `touches` fingers down: three or four arm the
        timer unless one is armed; any other count clears an armed timer. */
    method HandleTouchChange(touches: nat)
      requires Valid()
      modifies this`timer, this`nextTimer, this`trace
      ensures Valid()
      ensures (touches == 3 || touches == 4) && old(timer).None? ==>
        timer == Some(old(nextTimer)) && nextTimer == old(nextTimer) + 1 &&
        trace == old(trace) + [ArmTimer(old(nextTimer))]
      ensures (touches == 3 || touches == 4) && old(timer).Some? ==>
        timer == old(timer) && nextTimer == old(nextTimer) && trace == old(trace)
      ensures touches != 3 && touches != 4 ==>
        timer == None && nextTimer == old(nextTimer) &&
        trace == old(trace) + (if old(timer).Some? then [ClearTimer(old(timer).value)] else [])
    {
      if touches == 3 || touches == 4 {
        if timer.None? {
          InvArm(activeSounds, nextSound, trace, nextTimer);
          var h := nextTimer;
          nextTimer := nextTimer + 1;
          trace := trace + [ArmTimer(h)];
          timer := Some(h);
        }
      } else if timer.Some? {
        InvDisarm(activeSounds, nextSound, trace, timer.value, nextTimer, false);
        trace := trace + [ClearTimer(timer.value)];
        timer := None;
      }
    }

    /** The timeout callback: only the pending timer can fire; it opens the
        settings panel and forgets its handle. */
    method FireTimer()
      requires Valid() && timer.Some?
      modifies this`timer, this`settingsVisible, this`trace
      ensures Valid() && settingsVisible && timer == None
      ensures trace == old(trace) + [TimerFired(old(timer).value)]
    {
      InvDisarm(activeSounds, nextSound, trace, timer.value, nextTimer, true);
      trace := trace + [TimerFired(timer.value)];
      settingsVisible := true;
      timer := None;
    }

    /** `speakText(text)`: one utterance; it resolves on done, stop and error
        alike. */
    method SpeakText(text: string)
      requires Valid()
      modifies this`trace
      ensures Valid() && trace == old(trace) + [Speak(text)]
    {
      InvSpeak(activeSounds, nextSound, trace, timer, nextTimer, text);
      trace := trace + [Speak(text)];
    }

    /** `playPhonicsSound(c)`: when the letter has a sound file, create a new
        sound, add it to the list and start it; failures are logged. Sounds
        already in the list are left playing. */
    method PlayPhonicsSound(c: char, assets: map<char, Asset>, outcome: SoundOutcome)
      requires Valid()
      modifies this`activeSounds, this`nextSound, this`trace
      ensures Valid()
      ensures trace == old(trace) + PhonicsSteps(c, assets, outcome, old(nextSound))
      ensures activeSounds == old(activeSounds) + PhonicsSounds(c, assets, outcome, old(nextSound))
      ensures nextSound == old(nextSound) + |PhonicsSounds(c, assets, outcome, old(nextSound))|
    {
      InvPhonics(activeSounds, nextSound, trace, timer, nextTimer, c, assets, outcome);
      if c in assets {
        if outcome == CreateFailed {
          trace := trace + [CreateRejected(assets[c])];
          trace := trace + [LogError];
          assert trace == old(trace) + PhonicsSteps(c, assets, outcome, nextSound);
        } else {
          var id := nextSound;
          nextSound := nextSound + 1;
          trace := trace + [CreateSound(assets[c], id)];
          activeSounds := activeSounds + [id];
          trace := trace + [PlaySound(id)];
          if outcome == PlayFailed {
            trace := trace + [LogError];
          }
          assert trace == old(trace) + PhonicsSteps(c, assets, outcome, id);
        }
      }
    }

    /** `handleLetterPress(item)`: select the letter, then run the enabled
        steps in order: name, sound, word. */
    method HandleLetterPress(item: AlphabetEntry, assets: map<char, Asset>, outcome: SoundOutcome)
      requires Valid()
      modifies this`selectedLetter, this`activeSounds, this`nextSound, this`trace
      ensures Valid() && selectedLetter == Some(item.letter)
      ensures trace == old(trace) + PressSteps(FlagsOf(old(settings)), item, assets, outcome, old(nextSound))
      ensures activeSounds == old(activeSounds) +
        (if FlagsOf(old(settings)).phonics then PhonicsSounds(item.letter, assets, outcome, old(nextSound)) else [])
      ensures nextSound == old(nextSound) +
        (if FlagsOf(old(settings)).phonics then |PhonicsSounds(item.letter, assets, outcome, old(nextSound))| else 0)
    {
      selectedLetter := Some(item.letter);
      var flags := FlagsOf(settings);
      ghost var t0, a0, id := trace, activeSounds, nextSound;
      ghost var name := if flags.name then [Speak([LowerChar(item.letter)])] else [];
      ghost var sound := if flags.phonics then PhonicsSteps(item.letter, assets, outcome, id) else [];
      ghost var word := if flags.word then [Speak(item.phonics)] else [];
      if flags.name {
        SpeakText([LowerChar(item.letter)]);
      }
      assert trace == t0 + name && activeSounds == a0;
      if flags.phonics {
        PlayPhonicsSound(item.letter, assets, outcome);
      }
      ghost var added := if flags.phonics then PhonicsSounds(item.letter, assets, outcome, id) else [];
      assert trace == t0 + name + sound && activeSounds == a0 + added;
      if flags.word {
        SpeakText(item.phonics);
      }
      assert trace == t0 + name + sound + word;
      Seqs.ConcatAssoc(t0, name, sound, word);
    }

    /** The playback-status callback of sound `s`: when it has just finished,
        unload it and drop it, and only it, from the list. */
    method SoundStatus(s: SoundId, didJustFinish: bool)
      requires Valid() && s < nextSound
      modifies this`activeSounds, this`trace
      ensures Valid()
      ensures !didJustFinish ==> activeSounds == old(activeSounds) && trace == old(trace)
      ensures didJustFinish ==>
        activeSounds == Without(old(activeSounds), s) && trace == old(trace) + [UnloadSound(s)]
    {
      if didJustFinish {
        InvFinish(activeSounds, nextSound, trace, timer, nextTimer, s);
        trace := trace + [UnloadSound(s)];
        activeSounds := Without(activeSounds, s);
      }
    }

    /** The unmount clean-up: unload every listed sound, in order, then empty
        the list. */
    method Unmount()
      requires Valid()
      modifies this`activeSounds, this`trace
      ensures Valid() && activeSounds == []
      ensures trace == old(trace) + Unloads(old(activeSounds))
    {
      var i := 0;
      while i < |activeSounds|
        invariant 0 <= i <= |activeSounds| && activeSounds == old(activeSounds)
        invariant trace == old(trace) + Unloads(activeSounds[..i])
      {
        assert Unloads(activeSounds[..i + 1]) == Unloads(activeSounds[..i]) + [UnloadSound(activeSounds[i])];
        trace := trace + [UnloadSound(activeSounds[i])];
        i := i + 1;
      }
      assert activeSounds[..i] == activeSounds;
      InvUnmount(activeSounds, nextSound, old(trace), timer, nextTimer);
      activeSounds := [];
    }
  }
}

=== FILE: Seqs.dfy ===
/** Order-preserving selection from a sequence. */
module Seqs {

  /** `a` is obtained from `b` by deleting elements, keeping the order of the rest. */
  predicate IsSubseq<T(==)>(a: seq<T>, b: seq<T>)
    decreases |b|
  {
    if a == [] then true
    else if b == [] then false
    else if a[0] == b[0] then IsSubseq(a[1..], b[1..])
    else IsSubseq(a, b[1..])
  }

  lemma ConcatAssoc<T>(a: seq<T>, b: seq<T>, c: seq<T>, d: seq<T>)
    ensures a + b + c + d == a + (b + c + d)
  {
  }

  lemma {:induction false} SubseqOfNothing<T>(b: seq<T>)
    ensures IsSubseq([], b)
  {
  }

  lemma {:induction false} SubseqRefl<T>(a: seq<T>)
    ensures IsSubseq(a, a)
    decreases |a|
  {
    if a != [] {
      SubseqRefl(a[1..]);
    }
  }

  /** Dropping one element from the front of the larger sequence. */
  lemma {:induction false} SubseqSkip<T>(x: T, a: seq<T>, b: seq<T>)
    requires IsSubseq(a, b)
    ensures IsSubseq(a, [x] + b)
  {
    assert ([x] + b)[1..] == b;
    SubseqDrop(a, [x] + b);
  }

  /** A subsequence of the tail of `b` is a subsequence of `b`. */
  lemma {:induction false} SubseqDrop<T>(a: seq<T>, b: seq<T>)
    requires b != [] && IsSubseq(a, b[1..])
    ensures IsSubseq(a, b)
    decreases |b|, 0
  {
    if a != [] && a[0] == b[0] {
      SubseqTail(a, b[1..]);
    }
  }

  /** If `a` fits in `b`, so does `a` without its head. */
  lemma {:induction false} SubseqTail<T>(a: seq<T>, b: seq<T>)
    requires a != [] && IsSubseq(a, b)
    ensures IsSubseq(a[1..], b)
    decreases |b|, 1
  {
    if a[0] == b[0] {
      SubseqDrop(a[1..], b);
    } else {
      SubseqTail(a, b[1..]);
      SubseqDrop(a[1..], b);
    }
  }

  /** Subsequences of the parts of a concatenation give a subsequence of the whole. */
  lemma {:induction false} SubseqConcat<T>(a1: seq<T>, b1: seq<T>, a2: seq<T>, b2: seq<T>)
    requires IsSubseq(a1, b1) && IsSubseq(a2, b2)
    ensures IsSubseq(a1 + a2, b1 + b2)
    decreases |b1|
  {
    if b1 == [] {
      assert a1 == [];
      assert a1 + a2 == a2 && b1 + b2 == b2;
    } else if a1 != [] && a1[0] == b1[0] {
      SubseqConcat(a1[1..], b1[1..], a2, b2);
      assert (a1 + a2)[1..] == a1[1..] + a2;
      assert (b1 + b2)[1..] == b1[1..] + b2;
    } else {
      SubseqConcat(a1, b1[1..], a2, b2);
      assert (b1 + b2)[1..] == b1[1..] + b2;
      assert b1 + b2 == [b1[0]] + (b1[1..] + b2);
      SubseqSkip(b1[0], a1 + a2, b1[1..] + b2);
    }
  }
}

=== FILE: SettingsModal.dfy ===
/** The retro settings panel: the letter tiles that toggle one entry of the
    enabled map, and the switches that flip one flag each. The panel changes
    nothing itself; every control reports one key and its new value. */
module SettingsModal {
  import opened Json
  import opened Alphabet
  import opened Preferences
  import SoundBoard

  /** One call of `onUpdateSettings(key, value)`. */
  datatype SettingsUpdate = SettingsUpdate(key: string, value: Value)

  /** The keys of the eight switches, in panel order. */
  const SWITCH_KEYS: seq<string> :=
    [SHOW_STANDARD, SHOW_CURSIVE, SHOW_UPPERCASE, SHOW_LOWERCASE,
     PLAY_PHONICS, PLAY_LETTER_NAME, PLAY_WORD, "useMinimalStyle"]

  /** What the screen does with an update: replace that key. */
  function Apply(s: Settings, u: SettingsUpdate): Settings
  {
    Updated(s, u.key, u.value)
  }

  /** `toggleLetter(c)`: a copy of the enabled map with `c` set to the
      negation of its current entry, reported under `enabledLetters`. */
  function ToggleLetter(settings: Settings, c: char): (u: SettingsUpdate)
    ensures u.key == ENABLED_LETTERS && u.value.Letters?
    ensures var before, after := Get(settings, ENABLED_LETTERS), Some(u.value);
      && Lookup(after, c) == !Lookup(before, c)
      && (forall d :: d in u.value.m <==> d == c || d in LetterMap(before))
      && (forall d :: d != c && d in LetterMap(before) ==> u.value.m[d] == LetterMap(before)[d])
  {
    var enabled := Get(settings, ENABLED_LETTERS);
    SettingsUpdate(ENABLED_LETTERS, Letters(LetterMap(enabled)[c := !Lookup(enabled, c)]))
  }

  /** Toggling flips the visibility of `c` and of no other letter. */
  lemma ToggleFlipsOne(settings: Settings, c: char, d: char)
    ensures var after := Apply(settings, ToggleLetter(settings, c));
      Lookup(Get(after, ENABLED_LETTERS), d) ==
        if d == c then !Lookup(Get(settings, ENABLED_LETTERS), d)
        else Lookup(Get(settings, ENABLED_LETTERS), d)
    ensures forall k :: k != ENABLED_LETTERS ==>
      Get(Apply(settings, ToggleLetter(settings, c)), k) == Get(settings, k)
  {
  }

  /** Toggling the same letter twice restores the visibility of every letter. */
  lemma {:induction false} ToggleTwice(settings: Settings, c: char)
    ensures var once := Apply(settings, ToggleLetter(settings, c));
      var twice := Apply(once, ToggleLetter(once, c));
      forall d :: Lookup(Get(twice, ENABLED_LETTERS), d) == Lookup(Get(settings, ENABLED_LETTERS), d)
  {
    var once := Apply(settings, ToggleLetter(settings, c));
    var twice := Apply(once, ToggleLetter(once, c));
    forall d ensures Lookup(Get(twice, ENABLED_LETTERS), d) == Lookup(Get(settings, ENABLED_LETTERS), d) {
      ToggleFlipsOne(settings, c, d);
      ToggleFlipsOne(once, c, d);
    }
  }

  /** With an enabled map present, a toggle shows or hides the entries of
      that letter on the board and leaves every other entry as it was. */
  lemma {:induction false} ToggleChangesBoard(catalog: seq<AlphabetEntry>, settings: Settings, c: char, e: AlphabetEntry)
    requires Present(Get(settings, ENABLED_LETTERS)) && e in catalog
    ensures var before := SoundBoard.VisibleLetters(catalog, Get(settings, ENABLED_LETTERS));
      var after := SoundBoard.VisibleLetters(catalog,
        Get(Apply(settings, ToggleLetter(settings, c)), ENABLED_LETTERS));
      (e in after <==> e in before) <==> e.letter != c
  {
    var after := Get(Apply(settings, ToggleLetter(settings, c)), ENABLED_LETTERS);
    assert Present(after);
    SoundBoard.VisibleLettersSpec(catalog, Get(settings, ENABLED_LETTERS));
    SoundBoard.VisibleLettersSpec(catalog, after);
    ToggleFlipsOne(settings, c, e.letter);
  }

  /** A tile is drawn active when the map exists and enables its letter. */
  function TileActive(settings: Settings, c: char): (active: bool)
    ensures active <==> ENABLED_LETTERS in settings && settings[ENABLED_LETTERS].Letters?
                        && c in settings[ENABLED_LETTERS].m && settings[ENABLED_LETTERS].m[c]
  {
    Present(Get(settings, ENABLED_LETTERS)) && Lookup(Get(settings, ENABLED_LETTERS), c)
  }

  /** With a map present, the active tiles are exactly the letters the board
      shows; with none, the board shows every letter while no tile is active. */
  lemma {:induction false} TilesMatchBoard(catalog: seq<AlphabetEntry>, settings: Settings, e: AlphabetEntry)
    requires e in catalog
    ensures var shown := SoundBoard.VisibleLetters(catalog, Get(settings, ENABLED_LETTERS));
      && (Present(Get(settings, ENABLED_LETTERS)) ==> (TileActive(settings, e.letter) <==> e in shown))
      && (!Present(Get(settings, ENABLED_LETTERS)) ==> !TileActive(settings, e.letter) && e in shown)
  {
    SoundBoard.VisibleLettersSpec(catalog, Get(settings, ENABLED_LETTERS));
  }

  /** The switch for `key`: it reports the negation of that flag's truthiness. */
  function SwitchUpdate(settings: Settings, key: string): (u: SettingsUpdate)
    ensures u.key == key && u.value.Bool?
    ensures Truthy(u.value) <==> !Flag(settings, key)
  {
    SettingsUpdate(key, Bool(!Flag(settings, key)))
  }

  /** A switch flips its own flag and no other key; a second use restores it. */
  lemma {:induction false} SwitchFlipsOwnFlag(settings: Settings, i: nat)
    requires i < |SWITCH_KEYS|
    ensures var key := SWITCH_KEYS[i];
      var once := Apply(settings, SwitchUpdate(settings, key));
      var twice := Apply(once, SwitchUpdate(once, key));
      && Flag(once, key) == !Flag(settings, key)
      && (forall k :: k != key ==> Get(once, k) == Get(settings, k))
      && Flag(twice, key) == Flag(settings, key)
  {
    var key := SWITCH_KEYS[i];
    var once := Apply(settings, SwitchUpdate(settings, key));
    assert Get(once, key) == Some(Bool(!Flag(settings, key)));
    var twice := Apply(once, SwitchUpdate(once, key));
    assert Get(twice, key) == Some(Bool(!Flag(once, key)));
  }
}

=== FILE: SoundBoard.dfy ===
/** The retro letter board: which catalogue entries it shows, and the edge
    length it gives every button for the measured width of its container. */
module SoundBoard {
  import opened Json
  import opened Seqs
  import opened Alphabet

  const MARGIN: int := 12
  const PADDING: int := 16
  const MIN_SIZE: int := 75
  const MAX_SIZE: int := 110
  /** The size used before the container has been measured. */
  const UNMEASURED_SIZE: int := 80

  function Max(a: int, b: int): int { if a < b then b else a }

  /** `catalog.filter(item => enabled[item.char])`: every entry it keeps is
      enabled, and it keeps each enabled entry as often as the catalogue has it
      and no other entry. */
  function Filter(catalog: seq<AlphabetEntry>, enabled: Option<Value>): (r: seq<AlphabetEntry>)
    ensures |r| <= |catalog|
    ensures forall i :: 0 <= i < |r| ==> Lookup(enabled, r[i].letter)
    ensures forall e :: multiset(r)[e] == (if Lookup(enabled, e.letter) then multiset(catalog)[e] else 0)
  {
    if catalog == [] then []
    else
      assert catalog == [catalog[0]] + catalog[1..];
      var rest := Filter(catalog[1..], enabled);
      if Lookup(enabled, catalog[0].letter) then
        var r := [catalog[0]] + rest;
        assert r[1..] == rest;
        r
      else rest
  }

  /** The entries the board shows: the whole catalogue when the enabled map is
      missing or falsy, otherwise the entries whose letter it maps truthily. */
  function VisibleLetters(catalog: seq<AlphabetEntry>, enabled: Option<Value>): (r: seq<AlphabetEntry>)
    ensures |r| <= |catalog|
    ensures Present(enabled) ==> forall i :: 0 <= i < |r| ==> Lookup(enabled, r[i].letter)
  {
    if !Present(enabled) then catalog else Filter(catalog, enabled)
  }

  /** The filter keeps catalogue order and keeps exactly the enabled entries. */
  lemma {:induction false} FilterSelects(catalog: seq<AlphabetEntry>, enabled: Option<Value>)
    ensures IsSubseq(Filter(catalog, enabled), catalog)
    ensures forall e :: e in Filter(catalog, enabled) <==> e in catalog && Lookup(enabled, e.letter)
  {
    if catalog == [] {
      SubseqOfNothing(catalog);
    } else {
      var rest := Filter(catalog[1..], enabled);
      FilterSelects(catalog[1..], enabled);
      assert catalog == [catalog[0]] + catalog[1..];
      if Lookup(enabled, catalog[0].letter) {
        assert Filter(catalog, enabled)[1..] == rest;
      } else {
        SubseqSkip(catalog[0], rest, catalog[1..]);
      }
    }
  }

  /** What the board shows: everything when the map is absent; otherwise the
      enabled entries, in catalogue order. */
  lemma VisibleLettersSpec(catalog: seq<AlphabetEntry>, enabled: Option<Value>)
    ensures !Present(enabled) ==> VisibleLetters(catalog, enabled) == catalog
    ensures IsSubseq(VisibleLetters(catalog, enabled), catalog)
    ensures Present(enabled) ==>
      forall e :: e in VisibleLetters(catalog, enabled) <==> e in catalog && Lookup(enabled, e.letter)
    ensures Present(enabled) ==>
      forall e :: multiset(VisibleLetters(catalog, enabled))[e] ==
                  (if Lookup(enabled, e.letter) then multiset(catalog)[e] else 0)
  {
    FilterSelects(catalog, enabled);
    SubseqRefl(catalog);
  }

  /** The number of columns: as many minimum-size buttons with margins as fit
      across the padded width, and never fewer than one. */
  function Columns(width: nat): (cols: int)
    ensures cols >= 1
  {
    // Math.floor of a quotient by a positive constant is Dafny's `/`
    Max(1, (width - PADDING) / (MIN_SIZE + MARGIN))
  }

  /** The size each button would get from sharing the padded width equally
      between the columns, before clamping: the largest size for which a full
      row of buttons with their margins fits the padded width. */
  function Unclamped(width: nat): (u: int)
    ensures Columns(width) * (u + MARGIN) <= width - PADDING < Columns(width) * (u + 1 + MARGIN)
  {
    var x, q := width - PADDING, Columns(width);
    assert x == q * (x / q) + x % q;
    x / q - MARGIN
  }

  /** A row of `q` buttons grows with the button size. */
  lemma ScaleMonotone(q: int, a: int, b: int)
    requires q >= 1 && a <= b
    ensures q * a <= q * b
  {
    assert q * b - q * a == q * (b - a);
  }

  /** The button edge length for a container of `width` x `height` showing
      `count` buttons. Widths are whole numbers of pixels here. */
  function ButtonSize(width: nat, height: nat, count: nat): (size: int)
    ensures width == 0 || height == 0 || count == 0 ==> size == UNMEASURED_SIZE
    ensures width != 0 && height != 0 && count != 0 ==> MIN_SIZE <= size <= MAX_SIZE
    // a full row of the chosen size fits, unless it was raised to the minimum
    ensures width != 0 && height != 0 && count != 0 ==>
      size == MIN_SIZE || Columns(width) * (size + MARGIN) <= width - PADDING
    // one pixel more would not fit, unless the size was capped at the maximum
    ensures width != 0 && height != 0 && count != 0 ==>
      size == MAX_SIZE || Columns(width) * (size + 1 + MARGIN) > width - PADDING
  {
    if width == 0 || height == 0 || count == 0 then UNMEASURED_SIZE
    else
      var u, q := Unclamped(width), Columns(width);
      if u < MIN_SIZE then
        ScaleMonotone(q, u + 1 + MARGIN, MIN_SIZE + 1 + MARGIN);
        MIN_SIZE
      else if u > MAX_SIZE then
        ScaleMonotone(q, MAX_SIZE + MARGIN, u + MARGIN);
        MAX_SIZE
      else u
  }

  /** Once the container has been measured, the size depends on the width alone. */
  lemma SizeIgnoresHeightAndCount(width: nat, h1: nat, h2: nat, n1: nat, n2: nat)
    requires width != 0 && h1 != 0 && h2 != 0 && n1 != 0 && n2 != 0
    ensures ButtonSize(width, h1, n1) == ButtonSize(width, h2, n2)
  {
  }

  /** When at least one minimum-size button fits across, the shared size is
      already at least the minimum, a full row of the chosen size fits, and one
      more column of minimum-size buttons would not. */
  lemma {:induction false} FullRowFits(width: nat, height: nat, count: nat)
    requires width - PADDING >= MIN_SIZE + MARGIN
    requires height != 0 && count != 0
    ensures Unclamped(width) >= MIN_SIZE
    ensures Columns(width) * (Unclamped(width) + MARGIN) <= width - PADDING
    ensures Columns(width) * (ButtonSize(width, height, count) + MARGIN) <= width - PADDING
    ensures (Columns(width) + 1) * (MIN_SIZE + MARGIN) > width - PADDING
    ensures Columns(width) * (Unclamped(width) + 1 + MARGIN) > width - PADDING
  {
    var x, q, u := width - PADDING, Columns(width), Unclamped(width);
    assert q == x / (MIN_SIZE + MARGIN) && q * (MIN_SIZE + MARGIN) <= x;
    if u + 1 + MARGIN <= MIN_SIZE + MARGIN {
      ScaleMonotone(q, u + 1 + MARGIN, MIN_SIZE + MARGIN);
    }
    ScaleMonotone(q, ButtonSize(width, height, count) + MARGIN, u + MARGIN);
  }
}
